=== FILE: README.md ===
# GameAnno desktop editor: a Dafny model of the annotation session

GameAnno's desktop editors let a user load a video frame or an image and drag
bounding boxes on it. Each committed box gets a metadata record with an id
`box_<n>`, `[x_min, y_min, x_max, y_max]` coordinates, categories, interaction
types, an interactivity flag and notes. The user then exports the records as a
scene document. The repository holds two editors. `python/main.py` is the
current one: it writes a `categories` list and has an autosave. `main.py` is the
older one: it writes a single `category` string and has no autosave.

This project models, with integers and strings only, the logic of both editors
once the widgets are stripped away:

- `Geometry`: points, sizes, rectangles and coordinate lists. It covers the
  centring offset of the pixmap inside the canvas widget, Qt's normalised drag
  rectangle (stated abstractly), and the build and rebuild of coordinate lists.
- `Decimal`: `str(n)` and `f"{n:03d}"` as Python renders them, with the parse
  that inverts them. These are used for `box_<n>` ids and export scene ids.
- `Annotations`: the record, the `box_<n>` id, and well-formed record lists.
- `Drawing`: the canvas drag state machine (press, move, release) with its
  parallel `boxes` and `metadata` lists.
- `Editor`: the current editor's window. It covers `show_frame`, frame
  navigation, export, the unsaved-changes guards, autosave and its recovery,
  loading, and a `Step` function over all window actions with the invariant
  they keep. `Step` handles a press as the code does, including a press that
  misses the image (see Findings).
- `LegacyEditor`: where `main.py` differs from the current editor.
- `Search`: the case-insensitive substring filter of the metadata dialog.
- `Config`, `Options`, `MinMax`: the two fixed vocabularies, an optional value,
  and the smaller and larger of two integers.

Inputs the model receives instead of computing:

- the widget size and mouse positions;
- the size of the resized pixmap;
- whether `cap.read()` or `imread` succeeded;
- the frame count a video reports;
- dialog and message-box replies;
- whether an autosave is younger than a day;
- the rectangle Qt's `normalized()` returns, constrained by `Geometry.IsNormalized`.

The `show_frame`, navigation and canvas code of `main.py` matches the current
editor line for line (main.py:59-164 and main.py:270-328), except the record
built at main.py:104-111 (modelled by `LegacyEditor.Release`). So one definition
models both. The rows below cite the current editor's lines for these members.

The two editors have no undo/redo history, no minimum box size, no cap on
the display scale and no migration of old record fields. The model has none
of these either.

## Model

| member | source | states |
|---|---|---|
| Geometry.CentringOffset | python/main.py:253-257 | the offset is 0 unless the widget is larger along the axis; then the pixmap fits inside and the margins on either side differ by at most one pixel |
| Geometry.ImageRect | python/main.py:244-259 | the image rectangle has a non-negative top-left corner and the pixmap's size; with no pixmap it is empty |
| Geometry.ContainedPointIsOnPixmap | python/main.py:204-207 | a press the image rectangle contains, taken relative to the centring offset, is a point of the pixmap, so both coordinates are at least 0 |
| Geometry.DragDirectionIrrelevant | python/main.py:226 | dragging from b to a admits exactly the normalised rectangles that dragging from a to b admits |
| Geometry.NormalizedCoordsOrdered | python/main.py:226-231 | coordinates built from a normalised rectangle satisfy x_min <= x_max and y_min <= y_max, start at the componentwise minimum and reach the other corner, whatever the drag direction |
| Geometry.RectRoundTrip | python/main.py:327-332 | rebuilding a rectangle from the coordinates built from it gives back its x, y, width and height |
| Geometry.CoordsRoundTrip | python/main.py:327-332 | coordinates built from a rebuilt rectangle equal the stored ones; the rebuilt extent is non-negative exactly when the coordinates are ordered |
| Decimal.Digits | python/main.py:225 | the decimal form of n is non-empty, all digits, and has no leading zero unless n is 0 |
| Decimal.ValueOfDigits | python/main.py:225 | parsing the decimal form of n gives n |
| Decimal.DigitsInjective | python/main.py:225 | distinct numbers have distinct decimal forms |
| Decimal.ValueIgnoresLeadingZeros | python/main.py:534 | zeros put in front of a digit string do not change its value |
| Decimal.ZeroPad | python/main.py:534 | zero padding gives max(width, number of digits) digits that parse back to n and end in the plain decimal form |
| Decimal.Format03 | python/main.py:534 | `{n:03d}` is exactly max(3, width of the plain form) characters wide, the sign counted; for n >= 0 they are digits that parse back to n; for n < 0 a minus sign precedes digits that parse back to -n |
| Decimal.Format03Injective | python/main.py:534 | distinct frame numbers format to distinct strings |
| Annotations.BoxId | python/main.py:225 | the id is `box_` followed by digits with no leading zero (unless the counter is 0) that parse back to the counter |
| Annotations.BoxIdInjective | python/main.py:225 | two ids are equal exactly when their counters are |
| Annotations.NewRecord | python/main.py:229-236 | the committed record has id box_n and ordered coordinates that rebuild to the box; the dialog's fields are copied in |
| Annotations.WellFormedIdsUnique | python/main.py:225-237 | in a record list whose k-th id is box_k, no two records share an id |
| Annotations.AppendKeepsWellFormed | python/main.py:225-237 | appending the record for box len+1 keeps ids sequential and coordinates ordered |
| Drawing.Press | python/main.py:199-209 | a left press always starts a drag; start and end become the press point relative to the image only when the press lands on the image, and that point lies on the pixmap; boxes and records are untouched |
| Drawing.PressOnImageOnly | python/main.py:199-209 | corrected press: a drag is in progress afterwards exactly when the press lands on the image |
| Drawing.Move | python/main.py:211-217 | while dragging, a move over the image sets the end point to a pixmap point; any other move changes nothing |
| Drawing.Release | python/main.py:219-242 | a left release ends the drag. With distinct start and end, a pixmap and an accepted dialog, it appends exactly the normalised box and one record: id box_{len+1}, ordered coordinates rebuilding to that box, and the dialog's categories, interactivity, interaction types and notes. Otherwise boxes and records are unchanged |
| Drawing.InitialConsistent | python/main.py:185-194 | a new canvas has boxes and records in lockstep |
| Drawing.ReleasePreservesConsistent | python/main.py:225-237 | after any release, boxes and records have equal length, the k-th record has id box_k, and each record's coordinates are its box's |
| Drawing.DragKeepsConsistent | python/main.py:199-217 | presses and moves keep boxes and records in lockstep |
| Drawing.OffImagePressRecommitsStaleBox | python/main.py:199-224 | as written, a press off the image right after a committed drag, released at once, commits the previous rectangle again |
| Drawing.OffImagePressCommitsNothing | python/main.py:199-224 | with the corrected press, a release after a press off the image leaves boxes and records unchanged, whatever the canvas held |
| Editor.Start | python/main.py:292-307 | the constructed window has loaded nothing, drawn nothing, has no unsaved work and keeps the autosave files it found |
| Editor.StartInv | python/main.py:292-307 | the freshly built window satisfies the session invariant |
| Editor.ShowFrame | python/main.py:463-506 | when a frame is obtained: boxes and records become empty, dirty becomes false, the pixmap is set; frame number, drag state and autosave are kept. With a video and no capture or a failed read, nothing changes |
| Editor.PrevFrame | python/main.py:508-511 | frame 0 is a no-op; otherwise the frame number decreases by one and the frame is shown: when one is obtained, boxes and records are discarded without a prompt, dirty is cleared, the pixmap and resized frame are set, and nothing else changes, the drag state included; otherwise only the number changes; a number in [0, frameCount-1] stays there (main.py:315-318 is the same code) |
| Editor.NextFrame | python/main.py:513-516 | the last frame is a no-op; otherwise the frame number increases by one and the frame is shown: when one is obtained, boxes and records are discarded without a prompt, dirty is cleared, the pixmap and resized frame are set, and nothing else changes, the drag state included; otherwise only the number changes; a number in [0, frameCount-1] stays there (main.py:320-323 is the same code) |
| Editor.GoToFrame | python/main.py:518-521 | an in-range number becomes the current frame and is shown, with the same reset and the same nothing-else-changes as a step; an out-of-range one changes nothing (main.py:325-328 is the same code) |
| Editor.SceneId | python/main.py:530-534 | images export as `scene_001`; video frames as `scene_001_frame_` followed by exactly max(3, width of the plain form) characters: for a frame n >= 0 digits that parse back to n, for n < 0 a minus sign and digits that parse back to -n |
| Editor.SceneIdsDistinct | python/main.py:530-534 | distinct video frames get distinct scene ids, and none equals the image scene id |
| Editor.Export | python/main.py:523-571 | a document is written exactly when a frame is loaded, records exist and `show_frame` has set the resized frame; it holds the records and the scene id; then dirty is cleared and the autosave removed. With a frame and records but no resized frame the export raises and changes nothing; otherwise nothing happens |
| Editor.CheckUnsavedChanges | python/main.py:338-356 | does not proceed exactly when dirty, records exist and the reply is Cancel, or Save with an export that raises, and then the state is unchanged; exports only on Save after the prompt; otherwise the state is unchanged |
| Editor.Close | python/main.py:573-594 | the close does not complete exactly when dirty, records exist and the reply is Cancel, or Save with an export that raises, and then nothing changes; it exports only on Save after the prompt; a completed close always clears the autosave |
| Editor.PromptsIffDirty | python/main.py:340 | under the session invariant the guards prompt exactly when dirty; the record count test never decides |
| Editor.PerformAutosave | python/main.py:63-82 | nothing happens unless dirty and a frame is loaded; then, if `show_frame` ever set the resized frame, only the autosave slot changes and holds the frame kind, frame number and records; otherwise the write raises and nothing is saved |
| Editor.RebuildBoxes | python/main.py:324-333 | one box is rebuilt per record, and its coordinates are that record's |
| Editor.Recover | python/main.py:309-336 | on a recent autosave answered Yes, the saved records come back with one box each, rebuilt from that record's coordinates; the saved frame kind and number are restored, frame count and capture are kept, and the work is marked unsaved; the saved image, or a video frame read from an open capture, is displayed and sets the resized frame, and otherwise the pixmap and resized frame are as before; without recovery nothing changes |
| Editor.AutosaveRecoverRoundTrip | python/main.py:309-336 | autosaving and then recovering restores exactly the session's boxes, records, frame kind and frame number, with dirty set |
| Editor.VideoRecoveryShowsNoFrame | python/main.py:309-318 | recovering a video autosave at start-up restores the records but sets no pixmap, since there is no capture to read from |
| Editor.VideoRecoveryAutosaveRaises | python/main.py:63-77 | after a video autosave is recovered at start-up, the next autosave raises on the unset resized frame and writes nothing |
| Editor.VideoRecoveryExportRaises | python/main.py:536-538 | after a video autosave is recovered at start-up, saving from the prompt raises: no document is written, the load or close does not go ahead, and the autosave slot is kept |
| Editor.Release | python/main.py:238-241 | a committing release sets dirty and adds one record; any other release leaves dirty, boxes and records alone |
| Editor.OpenVideo | python/main.py:426-437 | a chosen video sets video mode, the capture, the frame count and frame 0, which is in range exactly when the count is at least 1; a successful read shows frame 0, clearing boxes, records and dirty and setting the pixmap and resized frame, with the autosave and drag state kept; a failed read changes nothing else (main.py:241-251 is the same code) |
| Editor.OpenImage | python/main.py:448-461 | a chosen image sets image mode; a decoded one is shown, clearing boxes, records and dirty and setting the pixmap and resized frame, with frame number, frame count, capture, autosave and drag state kept; an undecodable one only records that no frame is loaded (main.py:256-268 is the same code) |
| Editor.LoadVideo | python/main.py:417-437 | when the unsaved-changes guard does not proceed, everything is unchanged; otherwise the video is opened after the guard |
| Editor.LoadImage | python/main.py:439-461 | when the unsaved-changes guard does not proceed, everything is unchanged; otherwise the image is opened after the guard |
| Editor.Step | python/main.py:309-594 | presses, moves, export and the autosave timer leave boxes and records alone; only export, the timer and the guarded loads rewrite the autosave slot; only loading a video changes the frame count; only a release or a recovery sets the dirty flag |
| Editor.ShowFramePreservesInv | python/main.py:504-506 | showing a frame keeps the session invariant |
| Editor.NavigationPreservesInv | python/main.py:508-521 | navigation keeps the session invariant |
| Editor.GuardsPreserveInv | python/main.py:338-356 | export, autosave and the unsaved-changes guard keep the session invariant |
| Editor.LoadsPreserveInv | python/main.py:417-461 | loading a video or an image keeps the session invariant |
| Editor.RecoverPreservesInv | python/main.py:320-336 | recovery keeps the session invariant |
| Editor.StepPreservesInv | python/main.py:199-242 | every window action, presses as written included, keeps boxes and records in lockstep with ids box_1..box_n, dirty only with records present, and the autosave slot holding such a list |
| Editor.NavigationStaysInRange | python/main.py:508-521 | prev, next and go-to keep a frame number in [0, frameCount-1] in that range |
| LegacyEditor.DialogReply | main.py:104-111 | the older dialog yields the vocabulary item of the chosen combo row as the single category, plus the checkbox, the list selection and the notes |
| LegacyEditor.Release | main.py:94-117 | the canvas does what the shared canvas release does; a commit appends the box and one legacy record with id box_{len+1}, ordered coordinates rebuilding to the box, the chosen row's category and the dialog's other fields, and sets dirty; otherwise boxes, records and dirty are unchanged; nothing else in the window changes |
| LegacyEditor.CommittedRecordHasOneCategory | main.py:104-111 | every committed legacy record carries exactly one category string from the vocabulary |
| LegacyEditor.Export | main.py:330-377 | a document is written exactly when a frame is loaded, records exist and the resized frame is set, and then dirty is cleared; it raises in the same state as the current export; the autosave slot is untouched |
| LegacyEditor.ExportsAgree | main.py:330-377 | the two editors write the same document under the same gate and raise in the same states; only the current one clears the autosave |
| LegacyEditor.Close | main.py:379-397 | the close does not complete exactly when dirty, records exist and the reply is Cancel, or Save with an export that raises; it exports only on Save after the prompt |
| LegacyEditor.LegacyPreservesInv | main.py:100-112 | the older release, export and close keep the session invariant |
| Search.OccursUnfold | python/main.py:177 | a pattern occurs in a string exactly when it starts it or occurs in its tail |
| Search.Contains | python/main.py:177 | the scan answers true exactly when the pattern occurs somewhere in the string |
| Search.Hidden | python/main.py:174-182 | item i is hidden exactly when the lower-cased text does not occur in the lower-cased item (filter_interactions is the same code) |
| Search.OccursPrefix | python/main.py:177 | wherever a pattern extended by more characters occurs, the pattern itself occurs |
| Search.EmptySearchShowsAll | python/main.py:174-177 | an empty search hides no item |
| Search.SearchIgnoresCase | python/main.py:177 | texts that lower-case alike hide the same items |
| Search.NarrowingHidesMore | python/main.py:174-177 | an item hidden for a text stays hidden when more characters are typed |

## Left out

- Qt widgets, painting, dialogs and message boxes: their outcomes are inputs.
- Drawing.Release: Qt's `QRect(start, end).normalized()` is taken as an input. Its contract fixes only the top-left corner (the componentwise minimum) and a non-negative extent reaching the other point. Qt's exact inclusive width is left unpinned.
- Geometry.Contains: `QRect.contains` is modelled as the half-open pixel range. Qt's exact bounds are library behaviour; only the lower bound is needed for the non-negativity properties.
- Search.Hidden: lower-cases ASCII letters only; Python's `str.lower()` also folds non-ASCII letters.
- Editor.ShowFrame: requires that an image session has a loaded frame. The source raises on `frame.shape` otherwise, and the exception path is not modelled.
- Editor.Recover: assumes `imread` of the autosaved frame succeeds. It does not model the JSON parse failure, the missing-file case or the age arithmetic; those arrive as the `recent` input or as an empty autosave slot.
- Editor.Export: the document's timestamp and image size, the three files, the export directory and `clear_autosave` failures are not modelled. Its raise on a missing resized frame is modelled as no document and no change.
- Editor.Close: when the export on Save raises, the model refuses the close and keeps the autosave files. PyQt's handling of the escaped exception, which may end the process, is not modelled; the files stay either way. `Editor.CheckUnsavedChanges` and `LegacyEditor.Close` treat the raise the same way.
- Editor.PerformAutosave: the raise it reports leaves the window unchanged in `Editor.Step`. PyQt's handling of an exception escaping a timer slot, which may end the process, is not modelled.
- Scaling to 1280x720 (python/main.py:484-493, main.py:291-300) is floating point; the resulting pixmap size is an input.
- OpenCV decoding, video capture and the spin box's range and value signals: the frame count and read results are inputs.
- `DirectoryManager` (configuration files for the last directories), the autosave timer, temporary directory, `shutil` and `datetime`: these are file and clock plumbing.
- `paintEvent`: drawing only, with no state change.
- The older editor's `load_video` and `load_image` (main.py:238-268) call no guard. They are exactly `Editor.OpenVideo` and `Editor.OpenImage`.

## Findings

| source | as written | input that shows it | evidently intended | confidence | as-written member | corrected member |
|---|---|---|---|---|---|---|
| python/main.py:199-209 | a left press sets `drawing` even when it misses the image and keeps the previous gesture's start and end points (main.py:74-84 is the same); `Drawing.OffImagePressRecommitsStaleBox` exhibits it | after committing a drag from (1,1) to (5,5) on a 10x10 pixmap centred in a 20x20 canvas, press at widget point (0,0), release at once and accept the dialog: the box is committed a second time | a press off the image starts no drag, so its release commits nothing (proved in `Drawing.OffImagePressCommitsNothing`); `Editor.Step` keeps the press as written, and the window invariant holds for both presses (`Drawing.DragKeepsConsistent`) | not executed; high | Drawing.Press | Drawing.PressOnImageOnly |

=== FILE: annotations.dfy ===
/** The annotation record the canvas appends for each committed box, the
    `box_<n>` ids it carries, and what a well-formed list of records is. */
module Annotations {
  import opened Geometry
  import opened Decimal

  /** The category part of a record: the current editor stores a list under
      `categories`; the older editor stores one string under `category`. */
  datatype CategoryField = Categories(names: seq<string>) | Category(name: string)

  /** What an accepted metadata dialog hands back. */
  datatype Form = Form(category: CategoryField, isInteractive: bool, interactionTypes: seq<string>, notes: string)

  /** One entry of the canvas's `metadata` list. */
  datatype Record = Record(
    id: string,
    coordinates: Coords,
    category: CategoryField,
    isInteractive: bool,
    interactionTypes: seq<string>,
    notes: string)

  /** `f"box_{n}"`: the prefix, then the decimal form of `n`, which parses
      back to `n` and has no leading zero. */
  function BoxId(n: nat): (id: string)
    ensures |id| > 4 && id[..4] == "box_"
    ensures AllDigits(id[4..]) && Value(id[4..]) == n
    ensures id[4] == '0' ==> n == 0
  {
    ValueOfDigits(n);
    assert ("box_" + Digits(n))[4..] == Digits(n);
    "box_" + Digits(n)
  }

  /** Two box ids are equal exactly when their counters are. */
  lemma BoxIdInjective(a: nat, b: nat)
    ensures BoxId(a) == BoxId(b) <==> a == b
  {
    if BoxId(a) == BoxId(b) {
      assert BoxId(a)[4..] == BoxId(b)[4..];
    }
  }

  /** The record committed as the `n`-th box for the normalised rectangle `box`. */
  function NewRecord(n: nat, box: Rect, form: Form): (rec: Record)
    requires box.width >= 0 && box.height >= 0
    ensures rec.id == BoxId(n)
    ensures rec.coordinates.Ordered()
    ensures rec.coordinates == ToCoords(box) && FromCoords(rec.coordinates) == box
    ensures rec.category == form.category && rec.isInteractive == form.isInteractive
    ensures rec.interactionTypes == form.interactionTypes && rec.notes == form.notes
  {
    Record(BoxId(n), ToCoords(box), form.category, form.isInteractive, form.interactionTypes, form.notes)
  }

  /** Records as the canvas produces them: the k-th (from 1) has id `box_k`,
      and every coordinate list is ordered. */
  ghost predicate WellFormed(rs: seq<Record>) {
    forall i :: 0 <= i < |rs| ==> rs[i].id == BoxId(i + 1) && rs[i].coordinates.Ordered()
  }

  /** In a well-formed list no two records share an id. */
  lemma {:induction false} WellFormedIdsUnique(rs: seq<Record>)
    requires WellFormed(rs)
    ensures forall i, j :: 0 <= i < |rs| && 0 <= j < |rs| && i != j ==> rs[i].id != rs[j].id
  {
    forall i, j | 0 <= i < |rs| && 0 <= j < |rs| && i != j
      ensures rs[i].id != rs[j].id
    {
      BoxIdInjective(i + 1, j + 1);
    }
  }

  /** Appending the record built for the next box keeps a list well-formed. */
  lemma AppendKeepsWellFormed(rs: seq<Record>, box: Rect, form: Form)
    requires WellFormed(rs)
    requires box.width >= 0 && box.height >= 0
    ensures WellFormed(rs + [NewRecord(|rs| + 1, box, form)])
  {
  }

}

=== FILE: config.dfy ===
/** The two fixed vocabularies the metadata dialogs offer. */
module Config {

  const InteractionCategories: seq<string> := ["Door", "NPC", "UI_Element", "Button"]

  const InteractionTypes: seq<string> := ["open", "press", "talk", "use"]

}

=== FILE: decimal.dfy ===
/** Decimal rendering of integers as Python's `str()` and `format(n, "03d")`
    produce it, with the parse that inverts it. */
module Decimal {
  import opened MinMax

  predicate IsDigit(ch: char) {
    '0' <= ch <= '9'
  }

  predicate AllDigits(s: string) {
    forall i :: 0 <= i < |s| ==> IsDigit(s[i])
  }

  function DigitValue(ch: char): nat
    requires IsDigit(ch)
  {
    ch as int - '0' as int
  }

  function DigitChar(d: nat): (ch: char)
    requires d < 10
    ensures IsDigit(ch) && DigitValue(ch) == d
  {
    ('0' as int + d) as char
  }

  /** `str(n)` for `n >= 0`: the shortest decimal form, with no leading zero. */
  function Digits(n: nat): (s: string)
    ensures 1 <= |s|
    ensures AllDigits(s)
    ensures s[0] == '0' ==> n == 0
    decreases n
  {
    if n < 10 then [DigitChar(n)] else Digits(n / 10) + [DigitChar(n % 10)]
  }

  /** The number a string of decimal digits denotes; leading zeros are allowed. */
  function Value(s: string): nat
    requires AllDigits(s)
    decreases |s|
  {
    if |s| == 0 then 0 else Value(s[..|s| - 1]) * 10 + DigitValue(s[|s| - 1])
  }

  /** Parsing the decimal form of `n` gives back `n`. */
  lemma {:induction false} ValueOfDigits(n: nat)
    ensures Value(Digits(n)) == n
    decreases n
  {
    if n >= 10 {
      var s := Digits(n);
      assert s[..|s| - 1] == Digits(n / 10);
      ValueOfDigits(n / 10);
    }
  }

  /** Distinct numbers have distinct decimal forms. */
  lemma DigitsInjective(a: nat, b: nat)
    ensures Digits(a) == Digits(b) <==> a == b
  {
    if Digits(a) == Digits(b) {
      ValueOfDigits(a);
      ValueOfDigits(b);
    }
  }

  function Zeros(k: nat): (s: string)
    ensures |s| == k
    ensures forall i :: 0 <= i < k ==> s[i] == '0'
  {
    seq(k, _ => '0')
  }

  lemma {:induction false} ValueOfZeros(k: nat)
    ensures AllDigits(Zeros(k)) && Value(Zeros(k)) == 0
    decreases k
  {
    if k > 0 {
      assert Zeros(k)[..k - 1] == Zeros(k - 1);
      ValueOfZeros(k - 1);
    }
  }

  /** Leading zeros do not change the value of a digit string. */
  lemma {:induction false} ValueIgnoresLeadingZeros(k: nat, s: string)
    requires AllDigits(s)
    ensures AllDigits(Zeros(k) + s) && Value(Zeros(k) + s) == Value(s)
    decreases |s|
  {
    var t := Zeros(k) + s;
    if |s| == 0 {
      assert t == Zeros(k);
      ValueOfZeros(k);
    } else {
      assert t[..|t| - 1] == Zeros(k) + s[..|s| - 1];
      ValueIgnoresLeadingZeros(k, s[..|s| - 1]);
    }
  }

  /** `format(n, "0<width>d")` for `n >= 0`: the decimal form of `n`,
      left-filled with zeros to at least `width` characters. */
  function ZeroPad(n: nat, width: nat): (s: string)
    ensures |s| == Max(width, |Digits(n)|)
    ensures AllDigits(s) && Value(s) == n
    ensures s[|s| - |Digits(n)|..] == Digits(n)
  {
    var d := Digits(n);
    var k := if |d| < width then width - |d| else 0;
    ValueIgnoresLeadingZeros(k, d);
    ValueOfDigits(n);
    Zeros(k) + d
  }

  /** Python's `f"{n:03d}"`: width 3 counts the sign, and the zeros go between
      the sign and the digits, so -5 becomes "-05". */
  function Format03(n: int): (s: string)
    // the width is exactly three characters or the unpadded form, whichever is longer
    ensures n >= 0 ==> |s| == Max(3, |Digits(n)|)
    ensures n < 0 ==> |s| == Max(3, 1 + |Digits(-n)|)
    ensures n >= 0 ==> AllDigits(s) && Value(s) == n
    ensures n < 0 ==> s[0] == '-' && AllDigits(s[1..]) && Value(s[1..]) == -n
  {
    if n >= 0 then ZeroPad(n, 3) else "-" + ZeroPad(-n, 2)
  }

  /** Distinct frame numbers format to distinct strings, negative ones included. */
  lemma Format03Injective(a: int, b: int)
    ensures Format03(a) == Format03(b) <==> a == b
  {
    if Format03(a) == Format03(b) && a >= 0 && b >= 0 {
      assert Value(Format03(a)) == Value(Format03(b));
    }
  }

}

=== FILE: drawing.dfy ===
/** The annotation canvas (`AnnotationCanvas`): the drag state, the committed
    boxes with their parallel records, and the pixmap on display. Widget sizes,
    mouse positions, dialog outcomes and Qt's normalised rectangle are inputs. */
module Drawing {
  import opened Options
  import opened MinMax
  import opened Geometry
  import opened Annotations

  datatype Button = LeftButton | OtherButton

  /** How the metadata dialog opened by a release was closed. */
  datatype Reply = Cancelled | Accepted(form: Form)

  datatype Canvas = Canvas(
    drawing: bool,
    start: Point,
    end: Point,
    boxes: seq<Rect>,
    metadata: seq<Record>,
    pixmap: Option<Size>)

  /** A freshly constructed canvas: `QPoint()` is the origin. */
  const Initial: Canvas := Canvas(false, Point(0, 0), Point(0, 0), [], [], None)

  /** A press or move at `pos` lands on the displayed image. */
  predicate OnImage(c: Canvas, pos: Point, widget: Size) {
    c.pixmap.Some? && Contains(ImageRect(widget, c.pixmap), pos)
  }

  /** `pos` taken relative to the image's top-left corner in the widget. */
  function ImagePoint(c: Canvas, pos: Point, widget: Size): Point {
    Relative(pos, ImageRect(widget, c.pixmap))
  }

  /** Boxes and records run in lockstep: one record per box, the records
      well-formed, and each record's coordinates those of its box. */
  ghost predicate Consistent(c: Canvas) {
    && |c.boxes| == |c.metadata|
    && WellFormed(c.metadata)
    && forall i :: 0 <= i < |c.boxes| ==> ToCoords(c.boxes[i]) == c.metadata[i].coordinates
  }

  /** `mousePressEvent` as written: a left press always starts a drag, but the
      start point is only taken when the press lands on the image. */
  function Press(c: Canvas, button: Button, pos: Point, widget: Size): (r: Canvas)
    ensures button == OtherButton ==> r == c
    ensures button == LeftButton ==> r.drawing
    ensures r.boxes == c.boxes && r.metadata == c.metadata && r.pixmap == c.pixmap
    ensures button == LeftButton && OnImage(c, pos, widget) ==>
      && r.start == r.end == ImagePoint(c, pos, widget)
      && OnPixmap(r.start, c.pixmap.value)
    ensures !(button == LeftButton && OnImage(c, pos, widget)) ==> r.start == c.start && r.end == c.end
  {
    if button != LeftButton then c
    else if OnImage(c, pos, widget) then
      var p := ImagePoint(c, pos, widget);
      ContainedPointIsOnPixmap(widget, c.pixmap.value, pos);
      c.(drawing := true, start := p, end := p)
    else c.(drawing := true)
  }

  /** The press as evidently intended: a left press starts a drag only when it
      lands on the image; elsewhere it leaves no drag in progress. */
  function PressOnImageOnly(c: Canvas, button: Button, pos: Point, widget: Size): (r: Canvas)
    ensures button == OtherButton ==> r == c
    ensures button == LeftButton ==> (r.drawing <==> OnImage(c, pos, widget))
    ensures r.boxes == c.boxes && r.metadata == c.metadata && r.pixmap == c.pixmap
    ensures r.drawing && !c.drawing ==> r.start == r.end && OnPixmap(r.start, c.pixmap.value)
    ensures button == LeftButton && OnImage(c, pos, widget) ==> r.start == r.end == ImagePoint(c, pos, widget)
    ensures !(button == LeftButton && OnImage(c, pos, widget)) ==> r.start == c.start && r.end == c.end
  {
    if button != LeftButton then c
    else if OnImage(c, pos, widget) then Press(c, button, pos, widget)
    else c.(drawing := false)
  }

  /** `mouseMoveEvent`: while dragging, a move over the image moves the end point. */
  function Move(c: Canvas, pos: Point, widget: Size): (r: Canvas)
    ensures c.drawing && OnImage(c, pos, widget) ==>
      && r == c.(end := ImagePoint(c, pos, widget))
      && OnPixmap(r.end, c.pixmap.value)
    ensures !(c.drawing && OnImage(c, pos, widget)) ==> r == c
  {
    if c.drawing && OnImage(c, pos, widget) then
      ContainedPointIsOnPixmap(widget, c.pixmap.value, pos);
      c.(end := ImagePoint(c, pos, widget))
    else c
  }

  /** A release appends a box exactly when it ends a left drag between two
      distinct points over a displayed pixmap and the dialog is accepted. */
  predicate Commits(c: Canvas, button: Button, reply: Reply) {
    && button == LeftButton
    && c.drawing
    && c.start != c.end
    && c.pixmap.Some?
    && reply.Accepted?
  }

  /** `mouseReleaseEvent`. `box` is `QRect(start, end).normalized()`. */
  function Release(c: Canvas, button: Button, reply: Reply, box: Rect): (r: Canvas)
    requires IsNormalized(box, c.start, c.end)
    ensures button == LeftButton && c.drawing ==> !r.drawing
    ensures !(button == LeftButton && c.drawing) ==> r == c
    ensures r.start == c.start && r.end == c.end && r.pixmap == c.pixmap
    ensures !Commits(c, button, reply) ==> r.boxes == c.boxes && r.metadata == c.metadata
    ensures Commits(c, button, reply) ==>
      && r.boxes == c.boxes + [box]
      && |r.metadata| == |c.metadata| + 1 && r.metadata[..|c.metadata|] == c.metadata
      && var rec := r.metadata[|c.metadata|];
         && rec.id == BoxId(|c.boxes| + 1)
         && rec.coordinates.Ordered()
         && rec.coordinates.xMin == Min(c.start.x, c.end.x)
         && rec.coordinates.yMin == Min(c.start.y, c.end.y)
         && FromCoords(rec.coordinates) == box
         // the dialog's answers are stored as given
         && rec.category == reply.form.category
         && rec.isInteractive == reply.form.isInteractive
         && rec.interactionTypes == reply.form.interactionTypes
         && rec.notes == reply.form.notes
  {
    if !(button == LeftButton && c.drawing) then c
    else if Commits(c, button, reply) then
      c.(drawing := false,
         boxes := c.boxes + [box],
         metadata := c.metadata + [NewRecord(|c.boxes| + 1, box, reply.form)])
    else c.(drawing := false)
  }

  /** The empty canvas keeps boxes and records in lockstep. */
  lemma InitialConsistent()
    ensures Consistent(Initial)
  {
  }

  /** Every committed record carries the id `box_k` for the next k, ordered
      coordinates matching its box, and boxes and records stay in lockstep. */
  lemma ReleasePreservesConsistent(c: Canvas, button: Button, reply: Reply, box: Rect)
    requires Consistent(c)
    requires IsNormalized(box, c.start, c.end)
    ensures Consistent(Release(c, button, reply, box))
  {
    if Commits(c, button, reply) {
      AppendKeepsWellFormed(c.metadata, box, reply.form);
    }
  }

  /** Presses and moves never touch the committed boxes or records. */
  lemma DragKeepsConsistent(c: Canvas, button: Button, pos: Point, widget: Size)
    requires Consistent(c)
    ensures Consistent(Press(c, button, pos, widget))
    ensures Consistent(PressOnImageOnly(c, button, pos, widget))
    ensures Consistent(Move(c, pos, widget))
  {
  }

  /** As written, a press that misses the image keeps the previous gesture's
      points, so releasing it at once re-opens the dialog and commits the
      previous rectangle a second time. */
  lemma OffImagePressRecommitsStaleBox()
    ensures
      var form := Form(Categories(["Door"]), false, [], "");
      var previous := Rect(1, 1, 4, 4);
      var c := Canvas(false, Point(1, 1), Point(5, 5), [previous], [NewRecord(1, previous, form)], Some(Size(10, 10)));
      var widget := Size(20, 20);
      var pos := Point(0, 0);
      && Consistent(c)
      && !OnImage(c, pos, widget)
      && Release(Press(c, LeftButton, pos, widget), LeftButton, Accepted(form), previous).boxes == [previous, previous]
  {
  }

  /** With the corrected press, a release that follows a press off the image
      commits nothing, whatever state the canvas was in. */
  lemma OffImagePressCommitsNothing(c: Canvas, pos: Point, widget: Size, button: Button, reply: Reply, box: Rect)
    requires !OnImage(c, pos, widget)
    requires IsNormalized(box, c.start, c.end)
    ensures
      var r := Release(PressOnImageOnly(c, LeftButton, pos, widget), button, reply, box);
      r.boxes == c.boxes && r.metadata == c.metadata && !r.drawing
  {
  }

}

=== FILE: editor.dfy ===
/** The editor window of the current desktop tool (`MainWindow` with its
    `AutoSave` helper): frame navigation, the reset on showing a frame, the
    unsaved-changes guards, the export gate, and the autosave snapshot and its
    recovery. Decoding, resizing, files and clocks are inputs or left out. */
module Editor {
  import opened Options
  import opened MinMax
  import opened Geometry
  import opened Decimal
  import opened Annotations
  import opened Drawing

  /** The reply to the Save/Discard/Cancel message box. */
  datatype SaveReply = Save | Discard | Cancel

  datatype YesNo = Yes | No

  /** What `perform_autosave` writes (the timestamp and frame image aside). */
  datatype AutosaveData = AutosaveData(isImage: bool, frameNumber: int, annotations: seq<Record>)

  /** `hasFrame` is `current_frame is not None`, `hasResized` is whether
      `show_frame` has ever set `resized_frame`, `hasCapture` is
      `cap is not None`; `autosave` is the content of the autosave files. */
  datatype Session = Session(
    canvas: Canvas,
    dirty: bool,
    hasFrame: bool,
    hasResized: bool,
    hasCapture: bool,
    isImage: bool,
    frameCount: int,
    frameNumber: int,
    autosave: Option<AutosaveData>)

  /** The window as constructed, before any autosave is recovered: nothing
      loaded, nothing drawn, and the autosave files as they were found. */
  function Start(stored: Option<AutosaveData>): (s: Session)
    ensures s.canvas.boxes == [] && s.canvas.metadata == [] && !s.canvas.drawing && s.canvas.pixmap.None?
    ensures !s.dirty && !s.hasFrame && !s.hasResized && !s.hasCapture && !s.isImage
    ensures s.frameCount == 0 && s.frameNumber == 0 && s.autosave == stored
  {
    Session(Drawing.Initial, false, false, false, false, false, 0, 0, stored)
  }

  /** The invariant every operation keeps: boxes and records in lockstep, the
      dirty flag only with records present, and the autosave slot holding a
      non-empty well-formed record list. */
  ghost predicate Inv(s: Session) {
    && Consistent(s.canvas)
    && (s.dirty ==> |s.canvas.metadata| > 0)
    && (s.autosave.Some? ==> WellFormed(s.autosave.value.annotations) && |s.autosave.value.annotations| > 0)
  }

  lemma StartInv(stored: Option<AutosaveData>)
    requires stored.Some? ==> WellFormed(stored.value.annotations) && |stored.value.annotations| > 0
    ensures Inv(Start(stored))
  {
  }

  // ----- showing a frame -----

  /** `show_frame` on an image dereferences `current_frame`, which the source
      never checks; this is what it needs to not raise. */
  predicate CanShow(s: Session) {
    s.isImage ==> s.hasFrame
  }

  /** `show_frame` gets a frame: the image, or a successful read of the capture. */
  predicate Shows(s: Session, read: bool) {
    s.isImage || (s.hasCapture && read)
  }

  /** `show_frame`. `read` is whether `cap.read()` succeeded, `shown` the size
      of the resized pixmap. */
  function ShowFrame(s: Session, read: bool, shown: Size): (r: Session)
    requires CanShow(s)
    ensures Shows(s, read) ==>
      && r.canvas.boxes == [] && r.canvas.metadata == [] && !r.dirty
      && r.hasFrame && r.hasResized && r.canvas.pixmap == Some(shown)
    // nothing else changes, the drag state included
    ensures Shows(s, read) ==>
      && r.(canvas := s.canvas, dirty := s.dirty, hasFrame := s.hasFrame, hasResized := s.hasResized) == s
      && r.canvas.(boxes := s.canvas.boxes, metadata := s.canvas.metadata, pixmap := s.canvas.pixmap) == s.canvas
    ensures !Shows(s, read) ==> r == s
  {
    if Shows(s, read) then
      s.(hasFrame := true, hasResized := true, dirty := false,
         canvas := s.canvas.(boxes := [], metadata := [], pixmap := Some(shown)))
    else s
  }

  // ----- frame navigation -----

  predicate InRange(s: Session) {
    0 <= s.frameNumber < s.frameCount
  }

  /** `prev_frame`: step back unless already at frame 0. */
  function PrevFrame(s: Session, read: bool, shown: Size): (r: Session)
    requires CanShow(s)
    ensures s.frameNumber > 0 ==> r.frameNumber == s.frameNumber - 1
    // the step shows the frame, discarding boxes and records without a prompt
    ensures s.frameNumber > 0 && Shows(s, read) ==>
      r.canvas.boxes == [] && r.canvas.metadata == [] && !r.dirty && r.canvas.pixmap == Some(shown)
    // besides the frame number and what `show_frame` resets, nothing changes
    ensures s.frameNumber > 0 && Shows(s, read) ==>
      && r.hasFrame && r.hasResized
      && r.(canvas := s.canvas, dirty := s.dirty, hasFrame := s.hasFrame, hasResized := s.hasResized, frameNumber := s.frameNumber) == s
      && r.canvas.(boxes := s.canvas.boxes, metadata := s.canvas.metadata, pixmap := s.canvas.pixmap) == s.canvas
    ensures s.frameNumber > 0 && !Shows(s, read) ==> r == s.(frameNumber := s.frameNumber - 1)
    ensures s.frameNumber <= 0 ==> r == s
    ensures r.frameCount == s.frameCount && r.isImage == s.isImage && r.autosave == s.autosave
    ensures InRange(s) ==> InRange(r)
  {
    if s.frameNumber > 0 then ShowFrame(s.(frameNumber := s.frameNumber - 1), read, shown) else s
  }

  /** `next_frame`: step forward unless already at the last frame. */
  function NextFrame(s: Session, read: bool, shown: Size): (r: Session)
    requires CanShow(s)
    ensures s.frameNumber < s.frameCount - 1 ==> r.frameNumber == s.frameNumber + 1
    ensures s.frameNumber < s.frameCount - 1 && Shows(s, read) ==>
      r.canvas.boxes == [] && r.canvas.metadata == [] && !r.dirty && r.canvas.pixmap == Some(shown)
    // besides the frame number and what `show_frame` resets, nothing changes
    ensures s.frameNumber < s.frameCount - 1 && Shows(s, read) ==>
      && r.hasFrame && r.hasResized
      && r.(canvas := s.canvas, dirty := s.dirty, hasFrame := s.hasFrame, hasResized := s.hasResized, frameNumber := s.frameNumber) == s
      && r.canvas.(boxes := s.canvas.boxes, metadata := s.canvas.metadata, pixmap := s.canvas.pixmap) == s.canvas
    ensures s.frameNumber < s.frameCount - 1 && !Shows(s, read) ==> r == s.(frameNumber := s.frameNumber + 1)
    ensures s.frameNumber >= s.frameCount - 1 ==> r == s
    ensures r.frameCount == s.frameCount && r.isImage == s.isImage && r.autosave == s.autosave
    ensures InRange(s) ==> InRange(r)
  {
    if s.frameNumber < s.frameCount - 1 then ShowFrame(s.(frameNumber := s.frameNumber + 1), read, shown) else s
  }

  /** `go_to_frame`: jump to a frame that exists; other numbers are ignored. */
  function GoToFrame(s: Session, n: int, read: bool, shown: Size): (r: Session)
    requires CanShow(s)
    ensures 0 <= n < s.frameCount ==> r.frameNumber == n && InRange(r)
    ensures 0 <= n < s.frameCount && Shows(s, read) ==>
      r.canvas.boxes == [] && r.canvas.metadata == [] && !r.dirty && r.canvas.pixmap == Some(shown)
    // besides the frame number and what `show_frame` resets, nothing changes
    ensures 0 <= n < s.frameCount && Shows(s, read) ==>
      && r.hasFrame && r.hasResized
      && r.(canvas := s.canvas, dirty := s.dirty, hasFrame := s.hasFrame, hasResized := s.hasResized, frameNumber := s.frameNumber) == s
      && r.canvas.(boxes := s.canvas.boxes, metadata := s.canvas.metadata, pixmap := s.canvas.pixmap) == s.canvas
    ensures 0 <= n < s.frameCount && !Shows(s, read) ==> r == s.(frameNumber := n)
    ensures !(0 <= n < s.frameCount) ==> r == s
    ensures r.frameCount == s.frameCount && r.isImage == s.isImage && r.autosave == s.autosave
  {
    if 0 <= n < s.frameCount then ShowFrame(s.(frameNumber := n), read, shown) else s
  }

  // ----- export -----

  /** The `scene_id` of an export: fixed for an image, the frame number padded
      to at least three characters for a video frame. */
  function SceneId(isImage: bool, frame: int): (id: string)
    ensures isImage ==> id == "scene_001"
    ensures !isImage ==> |id| >= 19 && id[..16] == "scene_001_frame_"
    ensures !isImage && frame >= 0 ==>
      && |id| == 16 + Max(3, |Digits(frame)|)
      && AllDigits(id[16..]) && Value(id[16..]) == frame
    ensures !isImage && frame < 0 ==>
      && |id| == 16 + Max(3, 1 + |Digits(-frame)|)
      && id[16] == '-' && AllDigits(id[17..]) && Value(id[17..]) == -frame
  {
    if isImage then "scene_001" else "scene_001_frame_" + Format03(frame)
  }

  /** Different video frames export under different scene ids, and no video
      frame shares the id of an image export. */
  lemma SceneIdsDistinct(a: int, b: int)
    ensures SceneId(false, a) == SceneId(false, b) <==> a == b
    ensures SceneId(true, a) != SceneId(false, b)
  {
    if SceneId(false, a) == SceneId(false, b) {
      assert SceneId(false, a)[16..] == Format03(a);
      assert SceneId(false, b)[16..] == Format03(b);
      Format03Injective(a, b);
    }
  }

  /** The exported metadata document (timestamp and image size aside). */
  datatype ExportDoc = ExportDoc(sceneId: string, annotations: seq<Record>)

  /** The outcome of an export: the state it leaves, the document written,
      and whether it raised before writing anything. */
  datatype Exported = Exported(session: Session, doc: Option<ExportDoc>, raised: bool)

  /** `export_annotations` writes only with a frame loaded and records present. */
  predicate ExportReady(s: Session) {
    s.hasFrame && |s.canvas.metadata| > 0
  }

  /** The export's first write reads `resized_frame`; when `show_frame` never
      set it, the export raises before any file or flag changes. */
  predicate ExportRaises(s: Session) {
    ExportReady(s) && !s.hasResized
  }

  /** `export_annotations`: write the document, clear the dirty flag and the
      autosave; otherwise nothing happens. */
  function Export(s: Session): (r: Exported)
    ensures r.doc.Some? <==> ExportReady(s) && s.hasResized
    ensures r.raised <==> ExportRaises(s)
    ensures r.doc.Some? ==>
      && r.doc.value.annotations == s.canvas.metadata
      && r.doc.value.sceneId == SceneId(s.isImage, s.frameNumber)
      && r.session == s.(dirty := false, autosave := None)
    ensures r.doc.None? ==> r.session == s
  {
    if !ExportReady(s) then Exported(s, None, false)
    else if !s.hasResized then Exported(s, None, true)
    else
      Exported(s.(dirty := false, autosave := None),
               Some(ExportDoc(SceneId(s.isImage, s.frameNumber), s.canvas.metadata)), false)
  }

  // ----- unsaved-changes guards -----

  /** The guards ask only when there are unsaved records. */
  predicate Prompts(s: Session) {
    s.dirty && |s.canvas.metadata| > 0
  }

  /** Whether the guarded action goes ahead, and the state it leaves. */
  datatype Decision = Decision(proceed: bool, session: Session)

  /** The guarded action does not go ahead: the user cancels the prompt, or
      saves and the export raises, which ends the handler there. */
  predicate Refused(s: Session, reply: SaveReply) {
    Prompts(s) && (reply == Cancel || (reply == Save && ExportRaises(s)))
  }

  /** `check_unsaved_changes`: `reply` is the answer to the message box, read
      only when the box is shown. */
  function CheckUnsavedChanges(s: Session, reply: SaveReply): (r: Decision)
    ensures !r.proceed <==> Refused(s, reply)
    ensures !r.proceed ==> r.session == s
    ensures Prompts(s) && reply == Save ==> r.session == Export(s).session
    ensures !(Prompts(s) && reply == Save) ==> r.session == s
    ensures r.session.canvas == s.canvas
  {
    if Prompts(s) then
      match reply
      case Save =>
        var e := Export(s);
        Decision(!e.raised, e.session)
      case Discard => Decision(true, s)
      case Cancel => Decision(false, s)
    else Decision(true, s)
  }

  /** `closeEvent`: the close is refused on Cancel, and does not complete
      when the export raises; a completed close always clears the autosave. */
  function Close(s: Session, reply: SaveReply): (r: Decision)
    ensures !r.proceed <==> Refused(s, reply)
    ensures !r.proceed ==> r.session == s
    ensures r.proceed ==> r.session.autosave.None?
    ensures Prompts(s) && reply == Save && r.proceed ==> r.session == Export(s).session.(autosave := None)
    ensures !(Prompts(s) && reply == Save) && r.proceed ==> r.session == s.(autosave := None)
  {
    if Prompts(s) then
      match reply
      case Save =>
        var e := Export(s);
        if e.raised then Decision(false, s) else Decision(true, e.session.(autosave := None))
      case Discard => Decision(true, s.(autosave := None))
      case Cancel => Decision(false, s)
    else Decision(true, s.(autosave := None))
  }

  /** Under the invariant the record count in the guards is redundant: they
      ask exactly when the dirty flag is set. */
  lemma PromptsIffDirty(s: Session)
    requires Inv(s)
    ensures Prompts(s) <==> s.dirty
  {
  }

  // ----- autosave -----

  predicate AutosaveDue(s: Session) {
    s.dirty && s.hasFrame
  }

  /** `perform_autosave`: snapshot the records only when there are unsaved
      changes and a frame is loaded. The frame image is written first, from
      `resized_frame`; when `show_frame` never set it, that raises and the
      snapshot is not written, which is the `None` result. */
  function PerformAutosave(s: Session): (r: Option<Session>)
    ensures r.None? <==> AutosaveDue(s) && !s.hasResized
    ensures !AutosaveDue(s) ==> r == Some(s)
    ensures AutosaveDue(s) && s.hasResized ==>
      && r.value.autosave == Some(AutosaveData(s.isImage, s.frameNumber, s.canvas.metadata))
      && r.value.(autosave := s.autosave) == s
  {
    if !AutosaveDue(s) then Some(s)
    else if !s.hasResized then None
    else Some(s.(autosave := Some(AutosaveData(s.isImage, s.frameNumber, s.canvas.metadata))))
  }

  /** The boxes the recovery loop rebuilds, one per record. */
  function RebuildBoxes(rs: seq<Record>): (boxes: seq<Rect>)
    ensures |boxes| == |rs|
    ensures forall i :: 0 <= i < |rs| ==> ToCoords(boxes[i]) == rs[i].coordinates
    decreases |rs|
  {
    if |rs| == 0 then []
    else
      var last := rs[|rs| - 1];
      CoordsRoundTrip(last.coordinates);
      RebuildBoxes(rs[..|rs| - 1]) + [FromCoords(last.coordinates)]
  }

  /** The recovery takes place when autosave files exist, are less than a day
      old (`recent`) and the user answers Yes. */
  predicate Recovers(s: Session, recent: bool, reply: YesNo) {
    s.autosave.Some? && recent && reply == Yes
  }

  /** `check_for_previous_autosave`: reload the saved frame, show it, then put
      the saved records back, rebuild their boxes and mark the work unsaved. */
  function Recover(s: Session, recent: bool, reply: YesNo, read: bool, shown: Size): (r: Session)
    ensures Recovers(s, recent, reply) ==>
      && r.canvas.metadata == s.autosave.value.annotations
      && |r.canvas.boxes| == |r.canvas.metadata|
      // each box is rebuilt from its own record's coordinates
      && (forall i :: 0 <= i < |r.canvas.boxes| ==> ToCoords(r.canvas.boxes[i]) == r.canvas.metadata[i].coordinates)
      && r.isImage == s.autosave.value.isImage
      && r.frameNumber == s.autosave.value.frameNumber
      && r.dirty && r.hasFrame && r.autosave == s.autosave
      && r.frameCount == s.frameCount && r.hasCapture == s.hasCapture
    // `show_frame` displays the saved image, or a video frame when a capture is open and reads
    ensures Recovers(s, recent, reply) && (s.autosave.value.isImage || (s.hasCapture && read)) ==>
      r.canvas.pixmap == Some(shown) && r.hasResized
    ensures Recovers(s, recent, reply) && !(s.autosave.value.isImage || (s.hasCapture && read)) ==>
      r.canvas.pixmap == s.canvas.pixmap && r.hasResized == s.hasResized
    ensures !Recovers(s, recent, reply) ==> r == s
  {
    if Recovers(s, recent, reply) then
      var d := s.autosave.value;
      var loaded := ShowFrame(s.(hasFrame := true, isImage := d.isImage, frameNumber := d.frameNumber), read, shown);
      loaded.(canvas := loaded.canvas.(metadata := d.annotations, boxes := RebuildBoxes(d.annotations)), dirty := true)
    else s
  }

  /** Autosaving and then recovering restores the exact boxes and records of
      the session, with the same frame and the work still marked unsaved. */
  lemma {:induction false} AutosaveRecoverRoundTrip(s: Session, read: bool, shown: Size)
    requires Inv(s)
    requires AutosaveDue(s) && s.hasResized
    ensures
      var r := Recover(PerformAutosave(s).value, true, Yes, read, shown);
      && r.canvas.boxes == s.canvas.boxes
      && r.canvas.metadata == s.canvas.metadata
      && r.frameNumber == s.frameNumber && r.isImage == s.isImage
      && r.dirty
  {
    var rebuilt := RebuildBoxes(s.canvas.metadata);
    forall i | 0 <= i < |rebuilt|
      ensures rebuilt[i] == s.canvas.boxes[i]
    {
      RectRoundTrip(rebuilt[i]);
      RectRoundTrip(s.canvas.boxes[i]);
    }
  }

  /** At start-up there is no capture, so recovering a video autosave puts
      the records and boxes back without ever setting a pixmap. */
  lemma VideoRecoveryShowsNoFrame(d: AutosaveData, read: bool, shown: Size)
    requires !d.isImage
    ensures
      var r := Recover(Start(Some(d)), true, Yes, read, shown);
      && r.canvas.pixmap.None? && !r.hasResized
      && r.canvas.metadata == d.annotations
      && r.dirty && r.hasFrame
  {
  }

  /** So the first autosave after recovering a video autosave at start-up
      raises on the unset `resized_frame`, and the snapshot is not rewritten. */
  lemma VideoRecoveryAutosaveRaises(d: AutosaveData, read: bool, shown: Size)
    requires !d.isImage && |d.annotations| > 0
    ensures PerformAutosave(Recover(Start(Some(d)), true, Yes, read, shown)).None?
  {
  }

  /** After a video autosave is recovered at start-up, saving from the
      unsaved-changes prompt raises: nothing is exported, the load or close
      does not go ahead, and the autosave slot is kept. */
  lemma VideoRecoveryExportRaises(d: AutosaveData, read: bool, shown: Size)
    requires !d.isImage && |d.annotations| > 0
    ensures
      var r := Recover(Start(Some(d)), true, Yes, read, shown);
      && Export(r).raised && Export(r).doc.None?
      && !CheckUnsavedChanges(r, Save).proceed
      && Close(r, Save) == Decision(false, r) && r.autosave == Some(d)
  {
  }

  // ----- releases and loading -----

  /** The canvas release as seen by the window: a commit sets the dirty flag. */
  function Release(s: Session, button: Button, reply: Reply, box: Rect): (r: Session)
    requires IsNormalized(box, s.canvas.start, s.canvas.end)
    ensures r.canvas == Drawing.Release(s.canvas, button, reply, box)
    ensures Commits(s.canvas, button, reply) ==> r.dirty && |r.canvas.metadata| == |s.canvas.metadata| + 1
    ensures !Commits(s.canvas, button, reply) ==>
      r.dirty == s.dirty && r.canvas.boxes == s.canvas.boxes && r.canvas.metadata == s.canvas.metadata
    ensures r.(canvas := s.canvas, dirty := s.dirty) == s
  {
    s.(canvas := Drawing.Release(s.canvas, button, reply, box),
       dirty := s.dirty || Commits(s.canvas, button, reply))
  }

  /** The part of `load_video` after the guard: `count` is the frame count the
      chosen file reports; `None` is a cancelled file dialog. */
  function OpenVideo(s: Session, chosen: Option<int>, read: bool, shown: Size): (r: Session)
    ensures chosen.None? ==> r == s
    ensures chosen.Some? ==>
      && !r.isImage && r.hasCapture && r.frameNumber == 0 && r.frameCount == chosen.value
      && (chosen.value >= 1 <==> InRange(r))
    ensures chosen.Some? && read ==> r.canvas.boxes == [] && r.canvas.metadata == [] && !r.dirty
    // a successful read shows frame 0; the autosave slot and the drag state are kept
    ensures chosen.Some? && read ==>
      && r.canvas.pixmap == Some(shown) && r.hasFrame && r.hasResized && r.autosave == s.autosave
      && r.canvas.(boxes := s.canvas.boxes, metadata := s.canvas.metadata, pixmap := s.canvas.pixmap) == s.canvas
    // a failed read returns before anything is shown or reset
    ensures chosen.Some? && !read ==>
      r == s.(isImage := false, hasCapture := true, frameCount := chosen.value, frameNumber := 0)
  {
    match chosen
    case None => s
    case Some(count) =>
      ShowFrame(s.(isImage := false, hasCapture := true, frameCount := count, frameNumber := 0), read, shown)
  }

  /** The part of `load_image` after the guard: `chosen` is whether `imread`
      decoded the chosen file; `None` is a cancelled file dialog. */
  function OpenImage(s: Session, chosen: Option<bool>, shown: Size): (r: Session)
    ensures chosen.None? ==> r == s
    ensures chosen.Some? ==> r.isImage && (r.hasFrame <==> chosen.value)
    ensures chosen == Some(true) ==> r.canvas.boxes == [] && r.canvas.metadata == [] && !r.dirty
    // a decoded image is shown; frame number, frame count, capture, autosave and drag state are kept
    ensures chosen == Some(true) ==>
      && r.canvas.pixmap == Some(shown) && r.hasResized
      && r.(canvas := s.canvas, dirty := s.dirty, hasFrame := s.hasFrame, hasResized := s.hasResized, isImage := s.isImage) == s
      && r.canvas.(boxes := s.canvas.boxes, metadata := s.canvas.metadata, pixmap := s.canvas.pixmap) == s.canvas
    ensures chosen == Some(false) ==> r == s.(isImage := true, hasFrame := false)
  {
    match chosen
    case None => s
    case Some(ok) =>
      var s1 := s.(isImage := true, hasFrame := ok);
      if ok then ShowFrame(s1, true, shown) else s1
  }

  /** `load_video`: nothing happens when the unsaved-changes guard refuses. */
  function LoadVideo(s: Session, reply: SaveReply, chosen: Option<int>, read: bool, shown: Size): (r: Session)
    ensures Refused(s, reply) ==> r == s
    ensures !Refused(s, reply) ==> r == OpenVideo(CheckUnsavedChanges(s, reply).session, chosen, read, shown)
  {
    var d := CheckUnsavedChanges(s, reply);
    if !d.proceed then s else OpenVideo(d.session, chosen, read, shown)
  }

  /** `load_image`: nothing happens when the unsaved-changes guard refuses. */
  function LoadImage(s: Session, reply: SaveReply, chosen: Option<bool>, shown: Size): (r: Session)
    ensures Refused(s, reply) ==> r == s
    ensures !Refused(s, reply) ==> r == OpenImage(CheckUnsavedChanges(s, reply).session, chosen, shown)
  {
    var d := CheckUnsavedChanges(s, reply);
    if !d.proceed then s else OpenImage(d.session, chosen, shown)
  }

  // ----- the window as a whole -----

  /** One user or timer action on the window. */
  datatype Action =
    | PressAt(button: Button, pos: Point, widget: Size)
    | MoveTo(pos: Point, widget: Size)
    | ReleaseWith(button: Button, reply: Reply, box: Rect)
    | GoPrev(read: bool, shown: Size)
    | GoNext(read: bool, shown: Size)
    | GoTo(frame: int, read: bool, shown: Size)
    | ExportNow
    | AutosaveTick
    | ChooseVideo(saveReply: SaveReply, video: Option<int>, read: bool, shown: Size)
    | ChooseImage(saveReply: SaveReply, image: Option<bool>, shown: Size)
    | RecoverAutosave(recent: bool, answer: YesNo, read: bool, shown: Size)

  /** The preconditions the source relies on: Qt's normalised rectangle for a
      release, and a decodable frame for navigation on an image. */
  predicate Enabled(s: Session, a: Action) {
    match a
    case ReleaseWith(_, _, box) => IsNormalized(box, s.canvas.start, s.canvas.end)
    case GoPrev(_, _) => CanShow(s)
    case GoNext(_, _) => CanShow(s)
    case GoTo(_, _, _) => CanShow(s)
    case _ => true
  }

  /** The window's response to one action, presses as written. An autosave
      that raises leaves the window as it was. `Step` admits more sequences
      than the window offers: the source recovers an autosave only from its
      constructor, and disables frame navigation for an image. Proving the
      invariant for every action covers the reachable sequences too. */
  function Step(s: Session, a: Action): (r: Session)
    requires Enabled(s, a)
    // drag gestures, export and the autosave timer never touch boxes or records
    ensures a.PressAt? || a.MoveTo? || a.ExportNow? || a.AutosaveTick? ==>
      r.canvas.boxes == s.canvas.boxes && r.canvas.metadata == s.canvas.metadata
    // only export, the autosave timer and the loads (through the guard) rewrite the autosave slot
    ensures !(a.ExportNow? || a.AutosaveTick? || a.ChooseVideo? || a.ChooseImage?) ==> r.autosave == s.autosave
    // only loading a video changes the frame count
    ensures !a.ChooseVideo? ==> r.frameCount == s.frameCount
    // only a release or a recovery sets the dirty flag
    ensures r.dirty && !s.dirty ==> a.ReleaseWith? || a.RecoverAutosave?
  {
    match a
    case PressAt(button, pos, widget) => s.(canvas := Drawing.Press(s.canvas, button, pos, widget))
    case MoveTo(pos, widget) => s.(canvas := Drawing.Move(s.canvas, pos, widget))
    case ReleaseWith(button, reply, box) => Release(s, button, reply, box)
    case GoPrev(read, shown) => PrevFrame(s, read, shown)
    case GoNext(read, shown) => NextFrame(s, read, shown)
    case GoTo(n, read, shown) => GoToFrame(s, n, read, shown)
    case ExportNow => Export(s).session
    case AutosaveTick =>
      var t := PerformAutosave(s);
      if t.Some? then t.value else s
    case ChooseVideo(reply, video, read, shown) => LoadVideo(s, reply, video, read, shown)
    case ChooseImage(reply, image, shown) => LoadImage(s, reply, image, shown)
    case RecoverAutosave(recent, answer, read, shown) => Recover(s, recent, answer, read, shown)
  }

  /** Showing a frame establishes the invariant's canvas part afresh. */
  lemma ShowFramePreservesInv(s: Session, read: bool, shown: Size)
    requires Inv(s) && CanShow(s)
    ensures Inv(ShowFrame(s, read, shown))
  {
  }

  lemma NavigationPreservesInv(s: Session, a: Action)
    requires Inv(s) && Enabled(s, a)
    requires a.GoPrev? || a.GoNext? || a.GoTo?
    ensures Inv(Step(s, a))
  {
    match a
    case GoPrev(read, shown) =>
      if s.frameNumber > 0 { ShowFramePreservesInv(s.(frameNumber := s.frameNumber - 1), read, shown); }
    case GoNext(read, shown) =>
      if s.frameNumber < s.frameCount - 1 { ShowFramePreservesInv(s.(frameNumber := s.frameNumber + 1), read, shown); }
    case GoTo(n, read, shown) =>
      if 0 <= n < s.frameCount { ShowFramePreservesInv(s.(frameNumber := n), read, shown); }
  }

  lemma GuardsPreserveInv(s: Session, reply: SaveReply)
    requires Inv(s)
    ensures Inv(Export(s).session)
    ensures PerformAutosave(s).Some? ==> Inv(PerformAutosave(s).value)
    ensures Inv(CheckUnsavedChanges(s, reply).session)
  {
  }

  lemma LoadsPreserveInv(s: Session, reply: SaveReply, video: Option<int>, image: Option<bool>, read: bool, shown: Size)
    requires Inv(s)
    ensures Inv(LoadVideo(s, reply, video, read, shown))
    ensures Inv(LoadImage(s, reply, image, shown))
  {
    var d := CheckUnsavedChanges(s, reply).session;
    GuardsPreserveInv(s, reply);
    if video.Some? {
      ShowFramePreservesInv(d.(isImage := false, hasCapture := true, frameCount := video.value, frameNumber := 0), read, shown);
    }
    if image == Some(true) {
      ShowFramePreservesInv(d.(isImage := true, hasFrame := true), true, shown);
    }
  }

  lemma RecoverPreservesInv(s: Session, recent: bool, answer: YesNo, read: bool, shown: Size)
    requires Inv(s)
    ensures Inv(Recover(s, recent, answer, read, shown))
  {
    if Recovers(s, recent, answer) {
      var d := s.autosave.value;
      var boxes := RebuildBoxes(d.annotations);
      assert |boxes| == |d.annotations|;
    }
  }

  /** Every action, presses as written included, keeps the invariant: ids stay `box_1..box_n`, records and
      boxes stay in lockstep, and the autosave slot only ever holds such lists. */
  lemma StepPreservesInv(s: Session, a: Action)
    requires Inv(s) && Enabled(s, a)
    ensures Inv(Step(s, a))
  {
    match a
    case PressAt(button, pos, widget) =>
      DragKeepsConsistent(s.canvas, button, pos, widget);
    case MoveTo(pos, widget) =>
      DragKeepsConsistent(s.canvas, LeftButton, pos, widget);
    case ReleaseWith(button, reply, box) =>
      ReleasePreservesConsistent(s.canvas, button, reply, box);
    case GoPrev(_, _) => NavigationPreservesInv(s, a);
    case GoNext(_, _) => NavigationPreservesInv(s, a);
    case GoTo(_, _, _) => NavigationPreservesInv(s, a);
    case ExportNow => GuardsPreserveInv(s, Save);
    case AutosaveTick => GuardsPreserveInv(s, Save);
    case ChooseVideo(reply, video, read, shown) => LoadsPreserveInv(s, reply, video, None, read, shown);
    case ChooseImage(reply, image, shown) => LoadsPreserveInv(s, reply, None, image, true, shown);
    case RecoverAutosave(recent, answer, read, shown) => RecoverPreservesInv(s, recent, answer, read, shown);
  }

  /** Navigation keeps a frame number that starts in `[0, frameCount - 1]` there. */
  lemma NavigationStaysInRange(s: Session, a: Action)
    requires Enabled(s, a) && InRange(s)
    requires a.GoPrev? || a.GoNext? || a.GoTo?
    ensures InRange(Step(s, a))
  {
  }

}

=== FILE: geometry.dfy ===
/** Integer points, sizes and rectangles of the annotation canvas, and the
    conversions between widget positions, image positions, drag rectangles and
    the four-number `coordinates` list stored in an annotation record. */
module Geometry {
  import opened Options
  import opened MinMax

  datatype Point = Point(x: int, y: int)

  datatype Size = Size(width: nat, height: nat)

  /** A rectangle given by its top-left corner and its extent, as `QRect(x, y, w, h)`. */
  datatype Rect = Rect(x: int, y: int, width: int, height: int)

  /** The `coordinates` list of a record: `[x_min, y_min, x_max, y_max]`. */
  datatype Coords = Coords(xMin: int, yMin: int, xMax: int, yMax: int)
  {
    predicate Ordered() {
      xMin <= xMax && yMin <= yMax
    }
  }

  /** Offset along one axis that centres an extent `inner` in an extent `outer`.
      The difference is positive when it is taken, so Python's floor `//` and
      Dafny's `/` agree on it. */
  function CentringOffset(outer: nat, inner: nat): (off: nat)
    ensures outer <= inner ==> off == 0
    ensures outer > inner ==> off + inner <= outer
    // the margins before and after the image differ by at most one pixel
    ensures outer > inner ==> 0 <= (outer - inner - off) - off <= 1
  {
    if outer > inner then (outer - inner) / 2 else 0
  }

  /** Where the pixmap sits inside the canvas widget (`get_image_rect`); the
      empty rectangle when no pixmap is set. */
  function ImageRect(widget: Size, pixmap: Option<Size>): (r: Rect)
    ensures r.x >= 0 && r.y >= 0
    ensures pixmap.None? ==> r.width == 0 && r.height == 0
    ensures pixmap.Some? ==> r.width == pixmap.value.width && r.height == pixmap.value.height
    ensures pixmap.Some? ==>
      && r.x == CentringOffset(widget.width, pixmap.value.width)
      && r.y == CentringOffset(widget.height, pixmap.value.height)
  {
    match pixmap
    case None => Rect(0, 0, 0, 0)
    case Some(p) =>
      Rect(CentringOffset(widget.width, p.width), CentringOffset(widget.height, p.height), p.width, p.height)
  }

  /** Whether a point lies on one of the rectangle's pixels. */
  predicate Contains(r: Rect, p: Point) {
    r.x <= p.x < r.x + r.width && r.y <= p.y < r.y + r.height
  }

  /** A widget point taken relative to the rectangle's top-left corner. */
  function Relative(p: Point, r: Rect): Point {
    Point(p.x - r.x, p.y - r.y)
  }

  /** A point on the pixmap, in the pixmap's own pixel space. */
  predicate OnPixmap(p: Point, pixmap: Size) {
    0 <= p.x < pixmap.width && 0 <= p.y < pixmap.height
  }

  /** A widget point that the image rectangle contains becomes a point of the
      pixmap once the centring offset is subtracted. */
  lemma ContainedPointIsOnPixmap(widget: Size, pixmap: Size, p: Point)
    requires Contains(ImageRect(widget, Some(pixmap)), p)
    ensures OnPixmap(Relative(p, ImageRect(widget, Some(pixmap))), pixmap)
  {
  }

  /** What `QRect(a, b).normalized()` guarantees, without fixing Qt's exact
      extent: the top-left corner is the componentwise minimum of the two
      points and the extent is non-negative and reaches the other corner. */
  predicate IsNormalized(r: Rect, a: Point, b: Point) {
    && r.x == Min(a.x, b.x)
    && r.y == Min(a.y, b.y)
    && r.width >= 0
    && r.height >= 0
    && r.x + r.width >= Max(a.x, b.x)
    && r.y + r.height >= Max(a.y, b.y)
  }

  /** Dragging from `b` to `a` admits exactly the rectangles that dragging from
      `a` to `b` admits. */
  lemma DragDirectionIrrelevant(r: Rect, a: Point, b: Point)
    ensures IsNormalized(r, a, b) <==> IsNormalized(r, b, a)
  {
  }

  /** `[box.x(), box.y(), box.x() + box.width(), box.y() + box.height()]`. */
  function ToCoords(r: Rect): Coords {
    Coords(r.x, r.y, r.x + r.width, r.y + r.height)
  }

  /** `QRect(c[0], c[1], c[2] - c[0], c[3] - c[1])`, the autosave rebuild. */
  function FromCoords(c: Coords): Rect {
    Rect(c.xMin, c.yMin, c.xMax - c.xMin, c.yMax - c.yMin)
  }

  /** The coordinates of a normalised drag rectangle are ordered and span the
      two dragged points, whichever way the drag went. */
  lemma NormalizedCoordsOrdered(r: Rect, a: Point, b: Point)
    requires IsNormalized(r, a, b)
    ensures ToCoords(r).Ordered()
    ensures ToCoords(r).xMin == Min(a.x, b.x) && ToCoords(r).yMin == Min(a.y, b.y)
    ensures ToCoords(r).xMax >= Max(a.x, b.x) && ToCoords(r).yMax >= Max(a.y, b.y)
  {
  }

  /** Building coordinates from a rectangle and rebuilding the rectangle from
      them gives back its position and extent. */
  lemma RectRoundTrip(r: Rect)
    ensures FromCoords(ToCoords(r)) == r
  {
  }

  /** Rebuilding a rectangle from coordinates and converting it back gives the
      same coordinates. */
  lemma CoordsRoundTrip(c: Coords)
    ensures ToCoords(FromCoords(c)) == c
    ensures c.Ordered() <==> FromCoords(c).width >= 0 && FromCoords(c).height >= 0
  {
  }

}

=== FILE: legacy.dfy ===
/** The older desktop editor (`main.py`). Its canvas, `show_frame` and frame
    navigation are the code the current editor has; it differs in the record
    it commits (one `category` string picked in a combo box), in an export and a
    close that know nothing of autosave, and in loading without asking about
    unsaved changes. It runs on `Editor.Session`: the `autosave` slot is inert
    here, since nothing below reads or writes it, and `hasResized` plays the
    same part as in the current editor, whose export code this one shares. */
module LegacyEditor {
  import opened Options
  import opened Geometry
  import opened Annotations
  import opened Drawing
  import Config
  import Editor

  /** How the older metadata dialog was closed; an accepted one carries the
      combo box's current row and the other widgets' contents. */
  datatype ComboReply =
    | ComboCancelled
    | ComboAccepted(categoryIndex: nat, isInteractive: bool, interactionTypes: seq<string>, notes: string)

  /** A combo box's current row is one of its items. */
  predicate ValidRow(reply: ComboReply) {
    reply.ComboAccepted? ==> reply.categoryIndex < |Config.InteractionCategories|
  }

  /** The form the older dialog hands back: a single category string. */
  function DialogReply(reply: ComboReply): (r: Reply)
    requires ValidRow(reply)
    ensures reply.ComboCancelled? <==> r.Cancelled?
    ensures r.Accepted? ==>
      // the combo box's `currentText()`: the item of the chosen row
      && r.form.category == Category(Config.InteractionCategories[reply.categoryIndex])
      && r.form.category.name in Config.InteractionCategories
      && r.form.isInteractive == reply.isInteractive
      && r.form.interactionTypes == reply.interactionTypes
      && r.form.notes == reply.notes
  {
    match reply
    case ComboCancelled => Cancelled
    case ComboAccepted(row, interactive, types, notes) =>
      Accepted(Form(Category(Config.InteractionCategories[row]), interactive, types, notes))
  }

  /** `mouseReleaseEvent` of the older canvas: a commit appends one box and
      one record in the legacy shape, with id `box_{len(boxes)+1}`, and sets
      the dirty flag; otherwise boxes, records and the flag stay as they were. */
  function Release(s: Editor.Session, button: Button, reply: ComboReply, box: Rect): (r: Editor.Session)
    requires ValidRow(reply)
    requires IsNormalized(box, s.canvas.start, s.canvas.end)
    ensures Commits(s.canvas, button, DialogReply(reply)) ==>
      && r.dirty
      && r.canvas.boxes == s.canvas.boxes + [box]
      && |r.canvas.metadata| == |s.canvas.metadata| + 1
      && r.canvas.metadata[..|s.canvas.metadata|] == s.canvas.metadata
      && var rec := r.canvas.metadata[|s.canvas.metadata|];
         && rec.id == BoxId(|s.canvas.boxes| + 1)
         && rec.coordinates.Ordered()
         && FromCoords(rec.coordinates) == box
         && rec.category == Category(Config.InteractionCategories[reply.categoryIndex])
         && rec.isInteractive == reply.isInteractive
         && rec.interactionTypes == reply.interactionTypes
         && rec.notes == reply.notes
    ensures !Commits(s.canvas, button, DialogReply(reply)) ==>
      r.dirty == s.dirty && r.canvas.boxes == s.canvas.boxes && r.canvas.metadata == s.canvas.metadata
    // the canvas does what the shared canvas does, and only the dirty flag changes besides
    ensures r.canvas == Drawing.Release(s.canvas, button, DialogReply(reply), box)
    ensures r.(canvas := s.canvas, dirty := s.dirty) == s
  {
    Editor.Release(s, button, DialogReply(reply), box)
  }

  /** Every record the older canvas commits carries exactly one category
      string from the fixed vocabulary. */
  lemma CommittedRecordHasOneCategory(s: Editor.Session, button: Button, reply: ComboReply, box: Rect)
    requires ValidRow(reply)
    requires IsNormalized(box, s.canvas.start, s.canvas.end)
    requires Commits(s.canvas, button, DialogReply(reply))
    ensures
      var rec := Release(s, button, reply, box).canvas.metadata[|s.canvas.metadata|];
      rec.category.Category? && rec.category.name in Config.InteractionCategories
  {
  }

  /** `export_annotations` of the older editor: the same gate, document and
      raise on a missing resized frame, but the autosave slot is left alone. */
  function Export(s: Editor.Session): (r: Editor.Exported)
    ensures r.doc.Some? <==> Editor.ExportReady(s) && s.hasResized
    ensures r.raised <==> Editor.ExportRaises(s)
    ensures r.doc.Some? ==>
      && r.doc.value.annotations == s.canvas.metadata
      && r.doc.value.sceneId == Editor.SceneId(s.isImage, s.frameNumber)
      && r.session == s.(dirty := false)
    ensures r.doc.None? ==> r.session == s
  {
    if !Editor.ExportReady(s) then Editor.Exported(s, None, false)
    else if !s.hasResized then Editor.Exported(s, None, true)
    else
      Editor.Exported(s.(dirty := false),
                      Some(Editor.ExportDoc(Editor.SceneId(s.isImage, s.frameNumber), s.canvas.metadata)), false)
  }

  /** Both editors write the same document under the same gate and raise in
      the same states; they differ only in whether the autosave slot is cleared. */
  lemma ExportsAgree(s: Editor.Session)
    ensures Export(s).doc == Editor.Export(s).doc
    ensures Export(s).raised == Editor.Export(s).raised
    ensures Export(s).session == Editor.Export(s).session.(autosave := s.autosave)
  {
  }

  /** `closeEvent` of the older editor: refused on Cancel after the prompt,
      or when the export on Save raises; it exports only on Save. */
  function Close(s: Editor.Session, reply: Editor.SaveReply): (r: Editor.Decision)
    ensures !r.proceed <==> Editor.Refused(s, reply)
    ensures Editor.Prompts(s) && reply == Editor.Save ==> r.session == Export(s).session
    ensures !(Editor.Prompts(s) && reply == Editor.Save) ==> r.session == s
  {
    if Editor.Prompts(s) then
      match reply
      case Save =>
        var e := Export(s);
        Editor.Decision(!e.raised, e.session)
      case Discard => Editor.Decision(true, s)
      case Cancel => Editor.Decision(false, s)
    else Editor.Decision(true, s)
  }

  /** The older editor's release and export keep the window invariant. */
  lemma LegacyPreservesInv(s: Editor.Session, button: Button, reply: ComboReply, box: Rect, answer: Editor.SaveReply)
    requires Editor.Inv(s)
    requires ValidRow(reply)
    requires IsNormalized(box, s.canvas.start, s.canvas.end)
    ensures Editor.Inv(Release(s, button, reply, box))
    ensures Editor.Inv(Export(s).session)
    ensures Editor.Inv(Close(s, answer).session)
  {
    ReleasePreservesConsistent(s.canvas, button, DialogReply(reply), box);
  }

}

=== FILE: minmax.dfy ===
/** The smaller and the larger of two integers, shared by the geometry and
    the number formatting. */
module MinMax {

  function Min(a: int, b: int): int {
    if a <= b then a else b
  }

  function Max(a: int, b: int): int {
    if a <= b then b else a
  }

}

=== FILE: options.dfy ===
/** An optional value: Python's `None` or a present value. */
module Options {

  datatype Option<+T> = None | Some(value: T)

}

=== FILE: search.dfy ===
/** The search boxes of the metadata dialog (`filter_categories`,
    `filter_interactions`): an item is hidden when the lower-cased search text
    is not a substring of the lower-cased item text. Lower-casing is ASCII. */
module Search {

  function LowerChar(ch: char): char {
    if 'A' <= ch <= 'Z' then (ch as int + 32) as char else ch
  }

  function Lower(s: string): (r: string)
    ensures |r| == |s|
    ensures forall i :: 0 <= i < |s| ==> r[i] == LowerChar(s[i])
  {
    seq(|s|, i requires 0 <= i < |s| => LowerChar(s[i]))
  }

  /** `pat` occurs in `s` starting at position `k`. */
  ghost predicate OccursAt(pat: string, s: string, k: int) {
    0 <= k && k + |pat| <= |s| && s[k..k + |pat|] == pat
  }

  /** `pat in s` for strings: `pat` occurs in `s` at some position. */
  ghost predicate Occurs(pat: string, s: string) {
    exists k :: OccursAt(pat, s, k)
  }

  /** `pat` occurs in `s` exactly when it starts `s` or occurs in `s` without
      its first character. */
  lemma OccursUnfold(pat: string, s: string)
    requires |pat| <= |s| && 0 < |s|
    ensures Occurs(pat, s) <==> s[..|pat|] == pat || Occurs(pat, s[1..])
  {
    if s[..|pat|] == pat {
      assert OccursAt(pat, s, 0);
    }
    if Occurs(pat, s[1..]) {
      var k :| OccursAt(pat, s[1..], k);
      assert s[k + 1..k + 1 + |pat|] == s[1..][k..k + |pat|];
      assert OccursAt(pat, s, k + 1);
    }
    if Occurs(pat, s) && s[..|pat|] != pat {
      var k :| OccursAt(pat, s, k);
      assert k != 0;
      assert s[1..][k - 1..k - 1 + |pat|] == s[k..k + |pat|];
      assert OccursAt(pat, s[1..], k - 1);
    }
  }

  /** A left-to-right scan deciding `pat in s`. */
  function Contains(pat: string, s: string): (r: bool)
    ensures r <==> Occurs(pat, s)
    decreases |s|
  {
    if |pat| > |s| then false
    else if s[..|pat|] == pat then
      assert OccursAt(pat, s, 0);
      true
    else
      OccursUnfold(pat, s);
      Contains(pat, s[1..])
  }

  /** The hidden flags the filter sets, one per list item. */
  function Hidden(items: seq<string>, text: string): (hidden: seq<bool>)
    ensures |hidden| == |items|
    ensures forall i :: 0 <= i < |items| ==> (hidden[i] <==> !Occurs(Lower(text), Lower(items[i])))
  {
    seq(|items|, i requires 0 <= i < |items| => !Contains(Lower(text), Lower(items[i])))
  }

  /** An empty search hides nothing. */
  lemma EmptySearchShowsAll(items: seq<string>)
    ensures forall i :: 0 <= i < |items| ==> !Hidden(items, "")[i]
  {
    forall i | 0 <= i < |items|
      ensures Occurs(Lower(""), Lower(items[i]))
    {
      assert OccursAt(Lower(""), Lower(items[i]), 0);
    }
  }

  /** The search ignores ASCII case: texts that lower-case alike filter alike. */
  lemma SearchIgnoresCase(items: seq<string>, t: string, u: string)
    requires Lower(t) == Lower(u)
    ensures Hidden(items, t) == Hidden(items, u)
  {
  }

  lemma LowerAppend(t: string, u: string)
    ensures Lower(t + u) == Lower(t) + Lower(u)
  {
  }

  /** Wherever `p + q` occurs, `p` occurs too. */
  lemma OccursPrefix(p: string, q: string, s: string)
    requires Occurs(p + q, s)
    ensures Occurs(p, s)
  {
    var k :| OccursAt(p + q, s, k);
    assert s[k..k + |p|] == s[k..k + |p + q|][..|p|];
    assert OccursAt(p, s, k);
  }

  /** Typing more characters only hides more: an item shown for `t + u` is
      shown for `t`, so one hidden for `t` stays hidden for `t + u`. */
  lemma NarrowingHidesMore(items: seq<string>, t: string, u: string)
    ensures forall i :: 0 <= i < |items| && Hidden(items, t)[i] ==> Hidden(items, t + u)[i]
  {
    LowerAppend(t, u);
    forall i | 0 <= i < |items| && !Hidden(items, t + u)[i]
      ensures !Hidden(items, t)[i]
    {
      OccursPrefix(Lower(t), Lower(u), Lower(items[i]));
    }
  }

}
